=== FILE: README.md ===
# Crawl store query building, modelled in Dafny

This project models the text side of the crawler's persistence layer,
`app/db/model.py`. That layer stores discovered URLs ("paths") in one table
and tracks whether each has been crawled and stored. Its logic is string
work, and the model covers all of it:

- `validate` turns a Python value into SQL text.
- `push_paths` builds the bulk-insert values list.
- `replace_table_name` and the chained `str.replace` calls substitute the
  `@table`, `@timestamp`, `@values` and `@path` placeholders into a query
  template.
- `read_query` adds the `.sql` extension to a file name.
- `apply_fields` expands URLs into records that follow a field template.
- `DBConnector.commit` applies an outcome policy to what the driver raised.
  The crawl-store operations use it as written. A corrected version, which
  rolls back after a duplicate key, stands beside it; see "## Findings".

Modules, one per concern:

| file | module | models |
|---|---|---|
| results.dfy | `Results` | `Option`/`Result` for `None` returns and raised `KeyError`s |
| text.dfy | `Text` | Python `str.replace`, `str.split`, `sep.join`, `startswith`/`endswith`, `in` |
| query_files.dfy | `QueryFiles` | the `.sql` suffix rule of `read_query` |
| sql_values.dfy | `SqlValues` | Python values, `str()`, truthiness, `validate` |
| templates.dfy | `Templates` | placeholders and the substitution chains |
| records.dfy | `Records` | dicts as ordered association lists, `apply_fields` |
| bulk_insert.dfy | `BulkInsert` | the `(path,crawled,stored)` rows and their join |
| connector.dfy | `Connector` | the `commit` outcome policy over a connection state and call log |
| crawl_store.dfy | `CrawlStore` | the `DDO`/`DMO` operations put together |

Several inputs come from outside the code and are parameters of the model:

- the text of each SQL template file;
- the field template (`schema/crawler.json`), as a list of `Field`s;
- the timestamp text for `push_paths` and the clock reading for `apply_fields`;
- the row a cursor fetched;
- what the database driver raised when it executed and committed a statement.

Python's `str.replace` is modelled as `Text.Replace`. It is a single
left-to-right pass that replaces every non-overlapping occurrence. Its
independent partner is `Text.Split`, for Python's `str.split`, and the two are
connected by the identity `s.replace(t, r) == r.join(s.split(t))`.

The substitution-order theorems treat a template as plain text (no `@`)
interleaved with placeholders. A template written that way renders with every
placeholder replaced by its text, as long as the texts inserted before the
last step contain no `@`. The text inserted last (the values list, or the
path) is never scanned again and appears verbatim, whatever it contains.
`Templates.TableTextIsRescanned` shows why that condition is needed: a table
name holding `@path` is itself rewritten by the later `@path` step.

`apply_fields` in the source writes each field's computed value back into
the template entry, so later URLs see a modified template.
`Records.ApplyFieldsInPlace` does the same thing. It is proved equal to the
stateless reference `Records.ApplyFields`: the write-back never changes what
a field yields.

## Model

| member | source | states |
|---|---|---|
| Text.ReplaceIsJoinOfSplit | app/db/model.py:40 | `s.replace(t, r)` equals `r.join(s.split(t))` for every string and token |
| Text.ReplaceEveryOccurrence | app/db/model.py:37-40 | the replacement splits the template into token-free pieces, which rejoined with the token give back the template, and puts the replacement text between each two: every occurrence is replaced |
| Text.ReplaceAbsentToken | app/db/model.py:40 | a template that does not contain the token is returned unchanged |
| Text.SplitSingletonIff | app/db/model.py:40 | the template has no occurrence to replace exactly when it splits into a single piece |
| Text.ReplaceLength | app/db/model.py:40 | each replaced occurrence changes the length by the difference of the two texts' lengths |
| Text.SplitJoinRoundTrip | app/db/model.py:40 | split at a token, then joined with it, a string comes back unchanged |
| Text.JoinLength | app/db/model.py:117-128 | joining n pieces adds exactly n-1 separators |
| QueryFiles.NormalizeQueryName | app/db/model.py:17-19 | the file name always ends in `.sql`, begins with the given name, and is at most the suffix longer |
| QueryFiles.NormalizeUnchangedIff | app/db/model.py:17-19 | a name is left unchanged exactly when it already ends in `.sql` |
| QueryFiles.NormalizeAppendsWhenMissing | app/db/model.py:17-19 | a name without the suffix gets exactly one `.sql` appended |
| QueryFiles.NormalizeIdempotent | app/db/model.py:17-19 | normalising twice equals normalising once |
| QueryFiles.QueryPath | app/db/model.py:38-39 | the template path is the base directory plus the query name, with `.sql` ensured |
| SqlValues.Validate | app/db/model.py:25-34 | strings become the string between single quotes; datetimes become a `to_timestamp(...)` call with the `yyyy-mm-dd hh24:mi:ss` format around their text; `None` becomes `NULL`; exactly those three become text, and every other value passes through unchanged |
| SqlValues.ValidateFixedIff | app/db/model.py:32-34 | `validate` returns its argument unchanged exactly when it is not a string, datetime or `None` |
| SqlValues.StringQuotesNotEscaped | app/db/model.py:27-28 | a quoted string holds exactly the string's own quotes plus the two delimiters: embedded quotes are not escaped |
| SqlValues.StringRenderingRoundTrip | app/db/model.py:27-28 | removing the two delimiters from a quoted string gives the string back |
| SqlValues.StringRenderingInjective | app/db/model.py:27-28 | distinct strings give distinct SQL text |
| SqlValues.BooleanRendering | app/db/model.py:34 | a boolean passes through and reaches the row as Python prints it, `True` or `False` |
| Templates.ReplaceTableName | app/db/model.py:37-40 | the query is the template split at `@table` and joined with the table name, and is the template itself when `@table` does not occur |
| Templates.ReplaceFills | app/db/model.py:131-133 | on a template of plain text and placeholders, one `replace` of a placeholder fills exactly that placeholder's slots and leaves the rest alone |
| Templates.BulkInsertRendering | app/db/model.py:131-133 | replacing `@table`, then `@timestamp`, then `@values` yields the template with each placeholder replaced by its text, and the values text appears verbatim even when it holds another placeholder |
| Templates.UpdateStatusRendering | app/db/model.py:155-156 | replacing `@table` and then `@path` yields the template with both replaced, and the path appears verbatim |
| Templates.TableTextIsRescanned | app/db/model.py:155-156 | since `@path` is replaced after `@table`, a table name holding `@path` is itself rewritten: the statement differs from the intended one |
| Records.Put | app/db/model.py:174 | `dict.update` with one key: a new key is appended and an existing one keeps its place; the key then maps to the new value |
| Records.PutKeepsOthers | app/db/model.py:174 | `dict.update` with one key leaves every other key's value as it was |
| Records.ApplyFieldsInPlace | app/db/model.py:159-176 | the loop that writes computed values back into the template gives one record per URL, in order, each equal to the stateless reference record |
| Records.OverwriteIsInvisible | app/db/model.py:170-173 | writing a field's computed value back into the template does not change what it yields for any later URL |
| Records.RecordKeys | app/db/model.py:168-174 | a record's keys are the template's field names, each exactly once, in the order of first appearance |
| Records.RecordLookupLast | app/db/model.py:169-174 | a key's value comes from the last template field of that name |
| Records.RecordLookupAbsent | app/db/model.py:168-174 | a name absent from the template is absent from every record |
| Records.ApplyFieldsValues | app/db/model.py:169-174 | the `path` field gets the URL, unless it is typed `datetime`, in which case a non-empty URL is replaced by the clock value; a `datetime` field with a truthy default gets the clock value; every other field, a falsy `datetime` default included, keeps its template value |
| Records.PathIsUrl | app/db/model.py:166-175 | one record per URL, and with a `path` field in the template (not typed `datetime`) each record's `path` is its own URL |
| BulkInsert.RowText | app/db/model.py:119-123 | a row is `(` + SQL text of `path` + `,` + of `crawled` + `,` + of `stored` + `)`; a missing key fails with that key, checked in the order path, crawled, stored |
| BulkInsert.BuildValues | app/db/model.py:117-128 | the loop that adds a separator after every row but the last equals `", ".join(rows)`, or fails with the first missing key |
| BulkInsert.ValuesListShape | app/db/model.py:117-128 | the values list is empty for no records; otherwise it opens with `(`, closes with `)`, holds exactly len(items)-1 separators and does not end with one |
| Connector.CommitAsWritten | app/db/model.py:73-89 | `commit` as written: on a healthy connection, success and duplicate key both return `True`, but only success commits; a duplicate key neither commits nor rolls back and leaves the transaction aborted; a malformed statement rolls back and returns `None` with the connection open; any other error closes the cursor and connection and is re-raised |
| Connector.DuplicatePoisonsConnection | app/db/model.py:79-81 | as written, after a duplicate key the next `commit` on the connection, whatever its statement, raises and closes the connection |
| Connector.StaysHealthyAsWrittenIff | app/db/model.py:73-89 | as written, the connection stays healthy through a run of commits exactly when it started healthy and every statement succeeded or was malformed: a duplicate key spoils it like any other error |
| Connector.UnhealthyRaisesAll | app/db/model.py:85-89 | on a closed connection or an aborted transaction, every `commit` as written raises |
| Connector.RaisesAfterDuplicate | app/db/model.py:79-89 | as written, every `commit` after a duplicate key on the same session raises |
| Connector.Commit | app/db/model.py:73-89 | corrected `commit`, whose duplicate-key branch rolls back: on a healthy connection, success and duplicate key both return `True` but only success commits; a malformed statement or a duplicate key rolls back; a malformed statement returns `None`; any other error closes the cursor and connection and is re-raised; the connection stays healthy exactly when no other error occurred |
| Connector.DuplicateKeepsConnection | app/db/model.py:79-83 | corrected, a duplicate key returns `True` and leaves the connection healthy, so the next statement gets its own outcome |
| Connector.OutcomesDistinguished | app/db/model.py:75-89 | for the corrected `commit` on a healthy connection, outcomes of different kinds lead to different call traces or return values |
| Connector.StaysHealthyIff | app/db/model.py:79-89 | for the corrected `commit`, the connection stays healthy through a run exactly when it started healthy and no "other" error occurred, and a closed connection never reopens |
| Connector.CommitAllReturns | app/db/model.py:75-89 | for the corrected `commit`, in a run without "other" errors each call's return follows its own outcome alone |
| CrawlStore.CreateTableCrawler | app/db/model.py:96-100 | the statement is the template with `@table` replaced by the table name, `crawler` unless the caller names another, and its result is that of `commit` as written |
| CrawlStore.PushStatement | app/db/model.py:117-133 | the statement exists exactly when every record has its three keys, and is the template with the table, timestamp and joined rows substituted in that order |
| CrawlStore.PushPaths | app/db/model.py:110-134 | a record lacking a key fails before the database is touched; otherwise the statement, for table `crawler` unless another is named, goes to `commit` as written, and `push_paths` returns what it returns |
| CrawlStore.UpdateCrawledStatus | app/db/model.py:152-157 | the statement is the template with `@table`, then `@path` replaced, for table `crawler` unless another is named, and its result is that of `commit` as written |
| CrawlStore.DuplicatePushFailsNextUpdate | app/db/model.py:79-81 | a `push_paths` that hits a stored path returns `True`, yet the `update_crawled_status` after it on the same connection raises and closes the connection |
| CrawlStore.GetNextPath | app/db/model.py:148-150 | the result is the fetched row's first column, or `None` when no row (or an empty row) came back |
| CrawlStore.PushAfterApplyFields | app/db/model.py:113-123 | records from `apply_fields` with `path`, `crawled` and `stored` fields, the `path` field not typed `datetime`, never raise `KeyError`, give one row per URL in order, and each row opens with the quoted URL |
| CrawlStore.PushStatementRendering | app/db/model.py:117-133 | for a template of plain text and placeholders, the joined rows land verbatim where `@values` was |

## Left out

- File reads: `read_query` opens and reads the file and `apply_fields` reads `schema/crawler.json`. Both texts are parameters, so JSON parsing and the errors for a missing or malformed file are not modelled.
- `base_dir` comes from `os.getcwd()`. It is the `baseDir` parameter of `QueryFiles.QueryPath`.
- `DBConnector._start_connection` is not modelled. It reads environment variables and calls `psycopg2.connect`, which is foreign I/O.
- The singleton `__new__`/`__init__` is not modelled. It is process-global state around a live connection. `__init__` runs again on every `DBConnector()` call and opens a fresh connection, so a connection closed by `commit` is replaced only if a caller constructs the connector again; a `Session` stands for one connection between such constructions.
- `DMO.show` is not modelled beyond its query, which is `Templates.ReplaceTableName`. Executing it and `fetchall` are database I/O.
- `DMO.get_next_path` is modelled from the fetched row on. Executing its query is database I/O, and which row comes back depends on a template file that is not part of this model.
- Connector.CommitAsWritten: the outcome a statement would have on a healthy connection is a parameter, because which statements raise `IntegrityError` or `ProgrammingError` depends on the database. Of the driver only two rules are modelled, in `Connector.Effective`: a closed connection raises `InterfaceError`, and an aborted transaction raises `InFailedSqlTransaction` until rolled back; both fall under `OtherError`. Logging is not modelled.
- Connector.Commit: the corrected `commit` takes its outcome and the driver rules the same way as `Connector.CommitAsWritten`, and promises the same, except that a duplicate key is rolled back.
- Records.ApplyFieldsInPlace: one clock reading serves every field and every URL. The source calls `datetime.now()` again for each truthy `datetime` field of each record, so the readings differ between fields and between URLs, by as much time as the loop takes, whole seconds included.
- Time zones and `strftime` are not modelled. The `Asia/Tokyo` localisation and the `%Y-%m-%d %H:%M:%S` formatting produce timestamp text, which enters the model as an opaque string.
- SqlValues.Show: `str()` of values other than strings, datetimes, `None` and booleans is carried as text inside `VOther`, along with that value's truthiness. Number formatting is not modelled.
- Text.Replace: the token must be non-empty. Python also allows an empty token, but the source only ever replaces the four literal placeholders.

## Findings

| source | as written | input that shows it | evidently intended | confidence | as-written member | corrected member |
|---|---|---|---|---|---|---|
| app/db/model.py:79-81 | the `IntegrityError` branch returns `True` without `self.conn.rollback()`, so PostgreSQL keeps the failed transaction aborted | `push_paths` of a path already stored, then any further `commit` on the same `DBConnector` connection: its statement raises `InFailedSqlTransaction`, the generic branch closes cursor and connection, and every later `commit` on that connection raises until a new one is opened | treat the duplicate as success and roll back, as the `ProgrammingError` branch does, so the connection stays usable | medium, not executed | Connector.DuplicatePoisonsConnection | Connector.DuplicateKeepsConnection |

=== FILE: bulk_insert.dfy ===
/**
 * The values list of `DMO.push_paths`: each record becomes a
 * `(path,crawled,stored)` tuple of SQL text, and the tuples are separated by
 * `", "` with no separator after the last one.
 */
module BulkInsert {
  import opened Results
  import opened Text
  import opened SqlValues
  import opened Records

  const RowSeparator: string := ", "
  const CrawledKey: string := "crawled"
  const StoredKey: string := "stored"

  /** The record has every key a row reads. */
  predicate HasRowKeys(item: Record) {
    Lookup(item, PathKey).Some? && Lookup(item, CrawledKey).Some? && Lookup(item, StoredKey).Some?
  }

  /**
   * One row. `item['path']`, `item['crawled']` and `item['stored']` are read in
   * that order; the first missing key raises `KeyError`, reported here as
   * `Err(key)`.
   */
  function RowText(item: Record): (r: Result<string, string>)
    ensures r.Ok? <==> HasRowKeys(item)
    ensures r.Err? ==> r.error == (if Lookup(item, PathKey).None? then PathKey
                                   else if Lookup(item, CrawledKey).None? then CrawledKey
                                   else StoredKey)
    ensures r.Ok? ==> r.value == "(" + SqlText(Lookup(item, PathKey).value) + ","
                                     + SqlText(Lookup(item, CrawledKey).value) + ","
                                     + SqlText(Lookup(item, StoredKey).value) + ")"
  {
    match Lookup(item, PathKey)
    case None => Err(PathKey)
    case Some(path) =>
      match Lookup(item, CrawledKey)
      case None => Err(CrawledKey)
      case Some(crawled) =>
        match Lookup(item, StoredKey)
        case None => Err(StoredKey)
        case Some(stored) => Ok("(" + SqlText(path) + "," + SqlText(crawled) + "," + SqlText(stored) + ")")
  }

  /** The rows of records that all have their keys. */
  function Rows(items: seq<Record>): (rows: seq<string>)
    requires forall k :: 0 <= k < |items| ==> HasRowKeys(items[k])
    ensures |rows| == |items|
  {
    seq(|items|, k requires 0 <= k < |items| && HasRowKeys(items[k]) => RowText(items[k]).value)
  }

  /** The key the first incomplete record lacks, if any. */
  function FirstMissingKey(items: seq<Record>): (m: Option<string>)
    ensures m.None? <==> forall k :: 0 <= k < |items| ==> HasRowKeys(items[k])
  {
    if |items| == 0 then None
    else if RowText(items[0]).Err? then Some(RowText(items[0]).error)
    else
      var m := FirstMissingKey(items[1..]);
      assert forall k :: 1 <= k < |items| ==> items[k] == items[1..][k - 1];
      m
  }

  /** The reference values list: Python's `", ".join(rows)`, or the first `KeyError`. */
  function ValuesOf(items: seq<Record>): Result<string, string> {
    match FirstMissingKey(items)
    case Some(key) => Err(key)
    case None => Ok(Join(Rows(items), RowSeparator))
  }

  lemma {:induction false} FirstMissingKeyAt(items: seq<Record>, i: int)
    requires 0 <= i < |items| && !HasRowKeys(items[i])
    requires forall k :: 0 <= k < i ==> HasRowKeys(items[k])
    ensures FirstMissingKey(items) == Some(RowText(items[i]).error)
    decreases i
  {
    if i > 0 {
      FirstMissingKeyAt(items[1..], i - 1);
    }
  }

  lemma RowsSnoc(items: seq<Record>, i: int)
    requires 0 <= i < |items|
    requires forall k :: 0 <= k <= i ==> HasRowKeys(items[k])
    ensures Rows(items[..i + 1]) == Rows(items[..i]) + [RowText(items[i]).value]
  {
  }

  /**
   * The loop as the source writes it: append each row, and a separator after
   * every row but the last.
   */
  method BuildValues(items: seq<Record>) returns (r: Result<string, string>)
    ensures r == ValuesOf(items)
  {
    var values := "";
    for i := 0 to |items|
      invariant forall k :: 0 <= k < i ==> HasRowKeys(items[k])
      invariant values == if i == 0 then ""
                          else Join(Rows(items[..i]), RowSeparator) + (if i < |items| then RowSeparator else "")
    {
      var row := RowText(items[i]);
      if row.Err? {
        FirstMissingKeyAt(items, i);
        return Err(row.error);
      }
      var value := row.value;
      if i != |items| - 1 {
        value := value + RowSeparator;
      }
      RowsSnoc(items, i);
      if i > 0 {
        JoinSnoc(Rows(items[..i]), row.value, RowSeparator);
      }
      values := values + value;
    }
    assert items[..|items|] == items;
    assert FirstMissingKey(items).None?;
    if |items| == 0 {
      assert Rows(items) == [];
    }
    assert values == Join(Rows(items), RowSeparator);
    assert ValuesOf(items) == Ok(Join(Rows(items), RowSeparator));
    return Ok(values);
  }

  /**
   * The shape of a values list: empty for no records; otherwise it opens the
   * first tuple, closes the last, holds exactly `|items| - 1` separators
   * between the tuples and none at the end.
   */
  lemma ValuesListShape(items: seq<Record>)
    requires forall k :: 0 <= k < |items| ==> HasRowKeys(items[k])
    ensures ValuesOf(items).Ok?
    ensures |items| == 0 ==> ValuesOf(items).value == ""
    ensures |items| > 0 ==> var v := ValuesOf(items).value;
      && |v| == TotalLength(Rows(items)) + (|items| - 1) * |RowSeparator|
      && v[0] == '(' && v[|v| - 1] == ')'
      && !EndsWith(v, RowSeparator)
  {
    if |items| > 0 {
      var rows := Rows(items);
      JoinLength(rows, RowSeparator);
      JoinEnds(rows, RowSeparator);
    }
  }

  /** A join of tuples starts with the first tuple's `(` and ends with the last one's `)`. */
  lemma {:induction false} JoinEnds(rows: seq<string>, sep: string)
    requires |rows| > 0
    requires forall k :: 0 <= k < |rows| ==> |rows[k]| > 0 && rows[k][0] == '(' && rows[k][|rows[k]| - 1] == ')'
    ensures var v := Join(rows, sep); |v| > 0 && v[0] == '(' && v[|v| - 1] == ')'
    decreases |rows|
  {
    if |rows| > 1 {
      JoinEnds(rows[1..], sep);
    }
  }
}

=== FILE: connector.dfy ===
/**
 * The outcome policy of `DBConnector.commit`: execute a statement and commit
 * it, treating a duplicate-key conflict as success, rolling back a malformed
 * statement, and closing everything and re-raising on any other error.
 *
 * The database is not modelled beyond two rules of PostgreSQL and psycopg2
 * that the policy depends on: a closed cursor or connection makes every call
 * raise (`InterfaceError`), and once a statement fails, the transaction is aborted
 * and rejects every further statement until it is rolled back
 * (`InFailedSqlTransaction`). Both errors fall in the "any other error" branch.
 *
 * The source's duplicate-key branch does not roll back (`CommitAsWritten`), so
 * the next `commit` on the shared connection fails and closes it
 * (`DuplicatePoisonsConnection`). `Commit` rolls back there, as the
 * malformed-statement branch does, and keeps the connection usable.
 */
module Connector {

  /** What executing and committing a statement raises on a healthy connection. */
  datatype DbOutcome =
    | Completed
    | IntegrityError
    | ProgrammingError
    | OtherError(reason: string)

  datatype ConnState = Open | Closed

  /** The calls `commit` makes on the cursor and connection. */
  datatype Action = Execute | CommitTx | Rollback | CloseCursor | CloseConnection

  /**
   * The shared connection: whether it is open, whether its transaction was
   * aborted by a failed statement, and every call made on it so far.
   */
  datatype Session = Session(state: ConnState, aborted: bool, log: seq<Action>)

  /** What `commit` gives its caller: `True`, `None`, or a re-raised error. */
  datatype CommitReturn = ReturnedTrue | ReturnedNone | Raised(reason: string)

  /** `commit` closes the cursor first, so the next `execute` reports the cursor. */
  const ClosedReason: string := "cursor already closed"
  const AbortedReason: string := "current transaction is aborted"

  /** A session on which statements run normally. */
  predicate Healthy(s: Session) {
    s.state == Open && !s.aborted
  }

  /** Python truthiness of `commit`'s return value; a raised error has none. */
  predicate Succeeded(r: CommitReturn) {
    r == ReturnedTrue
  }

  /** What the driver actually raises for a statement on session `s`. */
  function Effective(s: Session, outcome: DbOutcome): (o: DbOutcome)
    ensures Healthy(s) ==> o == outcome
    ensures !Healthy(s) ==> o.OtherError?
  {
    if s.state == Closed then OtherError(ClosedReason)
    else if s.aborted then OtherError(AbortedReason)
    else outcome
  }

  /** The steps every branch shares: execute, then the branch's own calls. */
  function Step(s: Session, calls: seq<Action>, state: ConnState, aborted: bool): (r: Session)
    ensures |r.log| == |s.log| + 1 + |calls|
    ensures r.log[..|s.log|] == s.log && r.log[|s.log|..] == [Execute] + calls
  {
    var r := Session(state, aborted, s.log + [Execute] + calls);
    assert r.log[|s.log|..] == [Execute] + calls;
    r
  }

  /**
   * `commit` as the source writes it: success commits and returns `True`; a
   * duplicate key returns `True` but neither commits nor rolls back, so the
   * transaction stays aborted; a malformed statement rolls back and returns
   * `None`; any other error closes cursor and connection and is re-raised.
   */
  function CommitAsWritten(s: Session, outcome: DbOutcome): (r: (Session, CommitReturn))
    ensures Healthy(s) ==> (Succeeded(r.1) <==> outcome.Completed? || outcome.IntegrityError?)
    ensures Healthy(s) ==> (r.1 == ReturnedNone <==> outcome.ProgrammingError?)
    ensures r.1.Raised? <==> Effective(s, outcome).OtherError?
    ensures r.1.Raised? ==> r.1.reason == Effective(s, outcome).reason
    ensures Healthy(r.0) <==> Healthy(s) && (outcome.Completed? || outcome.ProgrammingError?)
    ensures r.0.state == Closed <==> s.state == Closed || Effective(s, outcome).OtherError?
    ensures Healthy(s) && outcome.IntegrityError? ==> r.0 == Session(Open, true, s.log + [Execute])
    ensures |r.0.log| > |s.log| && r.0.log[..|s.log|] == s.log && r.0.log[|s.log|] == Execute
    ensures Healthy(s) ==> (CommitTx in r.0.log[|s.log|..] <==> outcome.Completed?)
    ensures Healthy(s) ==> (Rollback in r.0.log[|s.log|..] <==> outcome.ProgrammingError?)
    ensures CloseConnection in r.0.log[|s.log|..] <==> Effective(s, outcome).OtherError?
    ensures CloseCursor in r.0.log[|s.log|..] <==> Effective(s, outcome).OtherError?
    ensures Effective(s, outcome).OtherError? ==> r.0.log[|s.log|..] == [Execute, CloseCursor, CloseConnection]
  {
    match Effective(s, outcome)
    case Completed => (Step(s, [CommitTx], s.state, s.aborted), ReturnedTrue)
    case IntegrityError => (Step(s, [], s.state, true), ReturnedTrue)
    case ProgrammingError => (Step(s, [Rollback], s.state, false), ReturnedNone)
    case OtherError(e) => (Step(s, [CloseCursor, CloseConnection], Closed, s.aborted), Raised(e))
  }

  /**
   * `commit` with the duplicate-key branch rolling back the failed statement:
   * success and duplicate key both return `True`, only success commits; a
   * malformed statement rolls back and returns `None`; any other error closes
   * cursor and connection and is re-raised.
   */
  function Commit(s: Session, outcome: DbOutcome): (r: (Session, CommitReturn))
    ensures Healthy(s) ==> (Succeeded(r.1) <==> outcome.Completed? || outcome.IntegrityError?)
    ensures Healthy(s) ==> (r.1 == ReturnedNone <==> outcome.ProgrammingError?)
    ensures Healthy(s) ==> (r.1.Raised? <==> outcome.OtherError?)
    ensures r.1.Raised? ==> r.1.reason == Effective(s, outcome).reason
    ensures Healthy(r.0) <==> Healthy(s) && !outcome.OtherError?
    ensures r.0.state == Closed <==> s.state == Closed || Effective(s, outcome).OtherError?
    ensures |r.0.log| > |s.log| && r.0.log[..|s.log|] == s.log && r.0.log[|s.log|] == Execute
    ensures Healthy(s) ==> (CommitTx in r.0.log[|s.log|..] <==> outcome.Completed?)
    ensures Healthy(s) ==> (Rollback in r.0.log[|s.log|..] <==> outcome.IntegrityError? || outcome.ProgrammingError?)
    ensures CloseConnection in r.0.log[|s.log|..] <==> Effective(s, outcome).OtherError?
    ensures CloseCursor in r.0.log[|s.log|..] <==> Effective(s, outcome).OtherError?
    ensures Effective(s, outcome).OtherError? ==> r.0.log[|s.log|..] == [Execute, CloseCursor, CloseConnection]
  {
    match Effective(s, outcome)
    case Completed => (Step(s, [CommitTx], s.state, s.aborted), ReturnedTrue)
    case IntegrityError => (Step(s, [Rollback], s.state, false), ReturnedTrue)
    case ProgrammingError => (Step(s, [Rollback], s.state, false), ReturnedNone)
    case OtherError(e) => (Step(s, [CloseCursor, CloseConnection], Closed, s.aborted), Raised(e))
  }

  /**
   * As written, a duplicate key reports success but leaves the transaction
   * aborted, so the next `commit` on the connection, whatever its statement,
   * raises and closes the connection.
   */
  lemma DuplicatePoisonsConnection(s: Session, next: DbOutcome)
    requires Healthy(s)
    ensures var (s1, r1) := CommitAsWritten(s, IntegrityError);
      && r1 == ReturnedTrue
      && CommitAsWritten(s1, next).1 == Raised(AbortedReason)
      && CommitAsWritten(s1, next).0.state == Closed
  {
  }

  /**
   * Corrected, a duplicate key reports success and leaves the connection
   * healthy, so the next statement gets its own outcome.
   */
  lemma DuplicateKeepsConnection(s: Session, next: DbOutcome)
    requires Healthy(s)
    ensures var (s1, r1) := Commit(s, IntegrityError);
      && r1 == ReturnedTrue
      && Healthy(s1)
      && Effective(s1, next) == next
  {
  }

  /** A sequence of `commit` calls on one session. */
  function CommitAll(s: Session, outcomes: seq<DbOutcome>): (r: (Session, seq<CommitReturn>))
    ensures |r.1| == |outcomes|
    decreases |outcomes|
  {
    if |outcomes| == 0 then (s, [])
    else
      var (s1, ret) := Commit(s, outcomes[0]);
      var (s2, rest) := CommitAll(s1, outcomes[1..]);
      (s2, [ret] + rest)
  }

  /** On a healthy session, outcomes of different kinds leave a different trace or return value. */
  lemma OutcomesDistinguished(s: Session, a: DbOutcome, b: DbOutcome)
    requires Healthy(s) && a != b
    ensures Commit(s, a) != Commit(s, b)
  {
    var la, lb := Commit(s, a).0.log, Commit(s, b).0.log;
    if a.Completed? || b.Completed? {
      assert la[|s.log|..] != lb[|s.log|..];
    }
  }

  /**
   * The connection stays healthy through a run of commits exactly when it
   * started healthy and none of them hit an error other than a duplicate key
   * or a malformed statement; a closed connection is never reopened.
   */
  lemma {:induction false} StaysHealthyIff(s: Session, outcomes: seq<DbOutcome>)
    ensures Healthy(CommitAll(s, outcomes).0)
            <==> Healthy(s) && forall k :: 0 <= k < |outcomes| ==> !outcomes[k].OtherError?
    ensures s.state == Closed ==> CommitAll(s, outcomes).0.state == Closed
    decreases |outcomes|
  {
    if |outcomes| > 0 {
      var s1 := Commit(s, outcomes[0]).0;
      StaysHealthyIff(s1, outcomes[1..]);
      assert forall k :: 1 <= k < |outcomes| ==> outcomes[k] == outcomes[1..][k - 1];
    }
  }

  /**
   * In a run of commits that hit no other error, each call's return follows
   * its own outcome alone, whatever came before.
   */
  lemma {:induction false} CommitAllReturns(s: Session, outcomes: seq<DbOutcome>, k: int)
    requires Healthy(s) && 0 <= k < |outcomes|
    requires forall j :: 0 <= j < k ==> !outcomes[j].OtherError?
    ensures Succeeded(CommitAll(s, outcomes).1[k]) <==> outcomes[k].Completed? || outcomes[k].IntegrityError?
    ensures CommitAll(s, outcomes).1[k].Raised? <==> outcomes[k].OtherError?
    decreases k
  {
    if k > 0 {
      CommitAllReturns(Commit(s, outcomes[0]).0, outcomes[1..], k - 1);
    }
  }

  /** A sequence of `commit` calls, as the source writes it, on one session. */
  function CommitAllAsWritten(s: Session, outcomes: seq<DbOutcome>): (r: (Session, seq<CommitReturn>))
    ensures |r.1| == |outcomes|
    decreases |outcomes|
  {
    if |outcomes| == 0 then (s, [])
    else
      var (s1, ret) := CommitAsWritten(s, outcomes[0]);
      var (s2, rest) := CommitAllAsWritten(s1, outcomes[1..]);
      (s2, [ret] + rest)
  }

  /**
   * As written, the connection stays healthy through a run of commits exactly
   * when it started healthy and every statement either succeeded or was
   * malformed: a duplicate key spoils it just as another error does.
   */
  lemma {:induction false} StaysHealthyAsWrittenIff(s: Session, outcomes: seq<DbOutcome>)
    ensures Healthy(CommitAllAsWritten(s, outcomes).0)
            <==> Healthy(s) && forall k :: 0 <= k < |outcomes| ==> outcomes[k].Completed? || outcomes[k].ProgrammingError?
    decreases |outcomes|
  {
    if |outcomes| > 0 {
      var s1 := CommitAsWritten(s, outcomes[0]).0;
      StaysHealthyAsWrittenIff(s1, outcomes[1..]);
      assert forall k :: 1 <= k < |outcomes| ==> outcomes[k] == outcomes[1..][k - 1];
    }
  }

  /** On a session that is not healthy, every `commit` as written raises. */
  lemma {:induction false} UnhealthyRaisesAll(s: Session, outcomes: seq<DbOutcome>)
    requires !Healthy(s)
    ensures forall j :: 0 <= j < |outcomes| ==> CommitAllAsWritten(s, outcomes).1[j].Raised?
    decreases |outcomes|
  {
    if |outcomes| > 0 {
      var s1 := CommitAsWritten(s, outcomes[0]).0;
      UnhealthyRaisesAll(s1, outcomes[1..]);
    }
  }

  /**
   * As written, once a statement hits a duplicate key, every later `commit` on
   * the same session raises, whatever the later statements are.
   */
  lemma {:induction false} RaisesAfterDuplicate(s: Session, outcomes: seq<DbOutcome>, k: int, j: int)
    requires 0 <= k < j < |outcomes| && outcomes[k].IntegrityError?
    ensures CommitAllAsWritten(s, outcomes).1[j].Raised?
    decreases k
  {
    var s1 := CommitAsWritten(s, outcomes[0]).0;
    if k == 0 {
      UnhealthyRaisesAll(s1, outcomes[1..]);
    } else {
      RaisesAfterDuplicate(s1, outcomes[1..], k - 1, j - 1);
    }
  }
}

=== FILE: crawl_store.dfy ===
/**
 * The crawl store's operations (`DDO.create_table_crawler` and the `DMO`
 * methods): build a statement from a template and hand it to `commit`.
 * Template texts, the timestamp text, the fetched row and the driver's
 * outcome are parameters.
 */
module CrawlStore {
  import opened Results
  import opened Text
  import opened SqlValues
  import opened Records
  import opened Templates
  import opened BulkInsert
  import opened Connector

  /** The table every operation uses unless its caller names another. */
  const DefaultTable: string := "crawler"

  /** A `table` argument as Python binds it: the caller's, or the default. */
  function TableArg(table: Option<string>): (t: string)
    ensures table.Some? ==> t == table.value
    ensures table.None? ==> t == DefaultTable
  {
    match table
    case Some(name) => name
    case None => DefaultTable
  }

  /** A statement sent to the database and what `commit` made of it. */
  datatype StoreCall = StoreCall(statement: string, session: Session, ret: CommitReturn)

  /** `DDO.create_table_crawler`. */
  function CreateTableCrawler(s: Session, template: string, table: Option<string>, outcome: DbOutcome): (c: StoreCall)
    ensures c.statement == Join(Split(template, TablePh.Marker()), TableArg(table))
    ensures (c.session, c.ret) == CommitAsWritten(s, outcome)
  {
    var (s', ret) := CommitAsWritten(s, outcome);
    StoreCall(ReplaceTableName(TableArg(table), template), s', ret)
  }

  /** The statement `push_paths` builds, or the `KeyError` a record raises first. */
  function PushStatement(template: string, table: string, timestamp: string, items: seq<Record>): (r: Result<string, string>)
    ensures r.Err? <==> exists k :: 0 <= k < |items| && !HasRowKeys(items[k])
    ensures r.Ok? ==> r.value == BulkInsertQuery(template, table, timestamp, Join(Rows(items), RowSeparator))
  {
    match ValuesOf(items)
    case Err(key) => Err(key)
    case Ok(values) => Ok(BulkInsertQuery(template, table, timestamp, values))
  }

  /**
   * `DMO.push_paths`: a record without a needed key raises before the database
   * is touched; otherwise the statement goes to `commit`.
   */
  function PushPaths(s: Session, template: string, table: Option<string>, timestamp: string, items: seq<Record>, outcome: DbOutcome)
    : (r: Result<StoreCall, string>)
    ensures r.Err? <==> exists k :: 0 <= k < |items| && !HasRowKeys(items[k])
    ensures r.Ok? ==> Ok(r.value.statement) == PushStatement(template, TableArg(table), timestamp, items)
    ensures r.Ok? ==> (r.value.session, r.value.ret) == CommitAsWritten(s, outcome)
  {
    match PushStatement(template, TableArg(table), timestamp, items)
    case Err(key) => Err(key)
    case Ok(q) =>
      var (s', ret) := CommitAsWritten(s, outcome);
      Ok(StoreCall(q, s', ret))
  }

  /** `DMO.update_crawled_status`. */
  function UpdateCrawledStatus(s: Session, template: string, table: Option<string>, path: string, outcome: DbOutcome): (c: StoreCall)
    ensures c.statement == Replace(Join(Split(template, TablePh.Marker()), TableArg(table)), PathPh.Marker(), path)
    ensures (c.session, c.ret) == CommitAsWritten(s, outcome)
  {
    var (s', ret) := CommitAsWritten(s, outcome);
    StoreCall(UpdateStatusQuery(template, TableArg(table), path), s', ret)
  }

  /**
   * A `push_paths` that hits an already stored path reports success, yet the
   * `update_crawled_status` that follows on the same session raises, whatever
   * its own statement would have done.
   */
  lemma DuplicatePushFailsNextUpdate(s: Session, pushTemplate: string, updateTemplate: string, table: Option<string>,
                                     timestamp: string, items: seq<Record>, path: string, next: DbOutcome)
    requires Healthy(s)
    requires forall k :: 0 <= k < |items| ==> HasRowKeys(items[k])
    ensures var pushed := PushPaths(s, pushTemplate, table, timestamp, items, IntegrityError);
      && pushed.Ok? && pushed.value.ret == ReturnedTrue
      && UpdateCrawledStatus(pushed.value.session, updateTemplate, table, path, next).ret.Raised?
      && UpdateCrawledStatus(pushed.value.session, updateTemplate, table, path, next).session.state == Closed
  {
    DuplicatePoisonsConnection(s, next);
  }

  /**
   * `DMO.get_next_path` after the query ran: the first column of the fetched
   * row, or `None` when there is no row (or an empty one).
   */
  function GetNextPath(fetched: Option<seq<Value>>): (v: Value)
    ensures fetched.None? ==> v == VNone
    ensures fetched.Some? && |fetched.value| == 0 ==> v == VNone
    ensures fetched.Some? && |fetched.value| > 0 ==> v == fetched.value[0]
  {
    match fetched
    case None => VNone
    case Some(row) => if |row| > 0 then row[0] else VNone
  }

  /**
   * `push_paths` after `apply_fields`: when the template has `path`, `crawled`
   * and `stored` fields (the `path` one not typed `datetime`), no record lacks a
   * key, there is one tuple per URL in order, and each tuple begins with the
   * URL quoted.
   */
  lemma PushAfterApplyFields(template: seq<Field>, urls: seq<string>, now: string)
    requires PathKey in Names(template) && CrawledKey in Names(template) && StoredKey in Names(template)
    requires forall j :: 0 <= j < |template| && template[j].name == PathKey ==> template[j].typ != DateTimeType
    ensures var items := ApplyFields(urls, template, now);
      && (forall k :: 0 <= k < |items| ==> HasRowKeys(items[k]))
      && |Rows(items)| == |urls|
      && (forall n :: 0 <= n < |urls| ==> StartsWith(Rows(items)[n], "('" + urls[n] + "',"))
  {
    var items := ApplyFields(urls, template, now);
    forall k | 0 <= k < |items| ensures HasRowKeys(items[k]) {
      AppliedRecordRow(template, urls[k], now);
    }
    forall n | 0 <= n < |urls| ensures StartsWith(Rows(items)[n], "('" + urls[n] + "',") {
      AppliedRecordRow(template, urls[n], now);
    }
  }

  lemma AppliedRecordRow(template: seq<Field>, url: string, now: string)
    requires PathKey in Names(template) && CrawledKey in Names(template) && StoredKey in Names(template)
    requires forall j :: 0 <= j < |template| && template[j].name == PathKey ==> template[j].typ != DateTimeType
    ensures HasRowKeys(BuildRecord(template, url, now))
    ensures StartsWith(RowText(BuildRecord(template, url, now)).value, "('" + url + "',")
  {
    var rec := BuildRecord(template, url, now);
    HasKeysFromTemplate(template, url, now, CrawledKey);
    HasKeysFromTemplate(template, url, now, StoredKey);
    PathIsUrlRecord(template, url, now);
    RowOpensWithPath(rec, url);
  }

  /** A row opens with its quoted path. */
  lemma RowOpensWithPath(item: Record, url: string)
    requires HasRowKeys(item) && Lookup(item, PathKey) == Some(VStr(url))
    ensures StartsWith(RowText(item).value, "('" + url + "',")
  {
    var a := SqlText(VStr(url));
    var head := "(" + a + ",";
    var rest := SqlText(Lookup(item, CrawledKey).value) + "," + SqlText(Lookup(item, StoredKey).value) + ")";
    assert a == "'" + url + "'";
    assert head == "('" + url + "',";
    assert RowText(item).value == head + rest;
  }

  /** A name of the template is a key of every record. */
  lemma HasKeysFromTemplate(template: seq<Field>, url: string, now: string, k: string)
    requires k in Names(template)
    ensures Lookup(BuildRecord(template, url, now), k).Some?
  {
    var i :| 0 <= i < |template| && template[i].name == k;
    TemplateNameIsKey(template, k, i);
  }

  lemma {:induction false} TemplateNameIsKey(template: seq<Field>, k: string, i: int)
    requires 0 <= i < |template| && template[i].name == k
    ensures forall url, now :: Lookup(BuildRecord(template, url, now), k).Some?
    decreases |template| - i
  {
    if exists j :: i < j < |template| && template[j].name == k {
      var j :| i < j < |template| && template[j].name == k;
      TemplateNameIsKey(template, k, j);
    } else {
      forall url, now ensures Lookup(BuildRecord(template, url, now), k).Some? {
        RecordLookupLast(template, url, now, k, i);
      }
    }
  }

  /**
   * The whole `push_paths` statement for a template of plain text and
   * placeholders: the values list lands verbatim where `@values` was.
   */
  lemma PushStatementRendering(pieces: seq<Piece>, table: string, timestamp: string, items: seq<Record>)
    requires LiteralsPlain(pieces) && Plain(table) && Plain(timestamp)
    requires forall k :: 0 <= k < |items| ==> HasRowKeys(items[k])
    ensures PushStatement(Flatten(pieces), table, timestamp, items)
            == Ok(Expand(pieces, Bindings(table, timestamp, Join(Rows(items), RowSeparator), PathPh.Marker())))
  {
    BulkInsertRendering(pieces, table, timestamp, Join(Rows(items), RowSeparator));
  }
}

=== FILE: query_files.dfy ===
/**
 * Query-file names: `read_query` appends the `.sql` extension to a name that
 * lacks it, and `replace_table_name` looks its template up under the base
 * directory. Reading the file is I/O and is not modelled; the file's text is
 * passed to the query builders as a parameter instead.
 */
module QueryFiles {
  import opened Text

  const SqlExtension: string := ".sql"

  /** The file name `read_query` opens for `name`. */
  function NormalizeQueryName(name: string): (file: string)
    ensures EndsWith(file, SqlExtension)
    ensures StartsWith(file, name)
    ensures |file| == |name| || |file| == |name| + |SqlExtension|
  {
    if EndsWith(name, SqlExtension) then name else name + SqlExtension
  }

  /** The file name `replace_table_name` reads for the query file `sql` under `baseDir`. */
  function QueryPath(baseDir: string, sql: string): (file: string)
    ensures EndsWith(file, SqlExtension)
    ensures StartsWith(file, baseDir + sql)
  {
    NormalizeQueryName(baseDir + sql)
  }

  /** A name is left as it is exactly when it already carries the extension. */
  lemma NormalizeUnchangedIff(name: string)
    ensures NormalizeQueryName(name) == name <==> EndsWith(name, SqlExtension)
  {
  }

  /** The extension is appended only when missing, and then exactly once. */
  lemma NormalizeAppendsWhenMissing(name: string)
    requires !EndsWith(name, SqlExtension)
    ensures NormalizeQueryName(name) == name + SqlExtension
    ensures !EndsWith(NormalizeQueryName(name)[..|name|], SqlExtension)
  {
    assert (name + SqlExtension)[..|name|] == name;
  }

  /** Normalising twice is the same as normalising once. */
  lemma NormalizeIdempotent(name: string)
    ensures NormalizeQueryName(NormalizeQueryName(name)) == NormalizeQueryName(name)
  {
  }
}

=== FILE: records.dfy ===
/**
 * Crawl records and `DMO.apply_fields`, which expands a list of URLs into one
 * record per URL following an ordered field template (read from
 * `schema/crawler.json` in the source; a parameter here). The current time is
 * a parameter too: `now` is the text of the timestamp the clock would give.
 */
module Records {
  import opened Results
  import opened SqlValues

  /** One key/value pair of a Python dict. */
  datatype Entry = Entry(key: string, value: Value)

  /**
   * A Python dict with string keys: entries in first-insertion order, each key
   * at most once (see `NoDuplicates`).
   */
  type Record = seq<Entry>

  /** One template entry: `{"name": ..., "type": ..., "value": ...}`. */
  datatype Field = Field(name: string, typ: string, value: Value)

  const PathKey: string := "path"
  const DateTimeType: string := "datetime"

  function Keys(r: Record): (keys: seq<string>)
    ensures |keys| == |r|
  {
    if |r| == 0 then [] else [r[0].key] + Keys(r[1..])
  }

  predicate NoDuplicates(xs: seq<string>) {
    forall i, j :: 0 <= i < j < |xs| ==> xs[i] != xs[j]
  }

  /** `r.get(k)`. */
  function Lookup(r: Record, k: string): Option<Value> {
    if |r| == 0 then None
    else if r[0].key == k then Some(r[0].value)
    else Lookup(r[1..], k)
  }

  /**
   * `r.update({k: v})`: an existing key keeps its position and takes the new
   * value; a new key is appended.
   */
  function Put(r: Record, k: string, v: Value): (r': Record)
    ensures Keys(r') == if k in Keys(r) then Keys(r) else Keys(r) + [k]
    ensures Lookup(r', k) == Some(v)
  {
    if |r| == 0 then [Entry(k, v)]
    else if r[0].key == k then [Entry(k, v)] + r[1..]
    else [r[0]] + Put(r[1..], k, v)
  }

  /** `update` leaves every other key's value alone. */
  lemma {:induction false} PutKeepsOthers(r: Record, k: string, v: Value, k': string)
    requires k' != k
    ensures Lookup(Put(r, k, v), k') == Lookup(r, k')
    decreases |r|
  {
    if |r| > 0 && r[0].key != k {
      PutKeepsOthers(r[1..], k, v, k');
    }
  }

  /** The value a template field takes in the record for `url`. */
  function FieldValue(f: Field, url: string, now: string): Value {
    var v := if f.name == PathKey then VStr(url) else f.value;
    if f.typ == DateTimeType && Truthy(v) then VDateTime(now) else v
  }

  function Names(template: seq<Field>): (names: seq<string>)
    ensures |names| == |template|
  {
    seq(|template|, i requires 0 <= i < |template| => template[i].name)
  }

  /** The record for one URL: each template field in order, through `dict.update`. */
  function BuildRecord(template: seq<Field>, url: string, now: string): Record
    decreases |template|
  {
    if |template| == 0 then []
    else
      var last := template[|template| - 1];
      Put(BuildRecord(template[..|template| - 1], url, now), last.name, FieldValue(last, url, now))
  }

  /** `apply_fields`, as a stateless reference: one record per URL. */
  function ApplyFields(urls: seq<string>, template: seq<Field>, now: string): (records: seq<Record>)
    ensures |records| == |urls|
  {
    seq(|urls|, i requires 0 <= i < |urls| => BuildRecord(template, urls[i], now))
  }

  // ---------------------------------------------------------------------------
  // The loop as the source writes it

  /**
   * `g` is the template entry `f` after zero or more passes of the source's
   * loop: same name and type, and a stored value that is either the original,
   * the clock for a truthy `datetime` entry, or anything for the `path` entry
   * (whose stored value is never read).
   */
  predicate SameField(g: Field, f: Field, now: string) {
    && g.name == f.name
    && g.typ == f.typ
    && (|| f.name == PathKey
        || g.value == f.value
        || (f.typ == DateTimeType && Truthy(f.value) && g.value == VDateTime(now)))
  }

  lemma SameFieldYieldsSame(g: Field, f: Field, url: string, now: string)
    requires SameField(g, f, now)
    ensures FieldValue(g, url, now) == FieldValue(f, url, now)
  {
  }

  /**
   * The source overwrites a template entry's value on every pass (the URL for
   * `path`, the clock for a truthy `datetime`), so later URLs see a modified
   * template. The overwrite never changes what the entry yields.
   */
  lemma OverwriteIsInvisible(g: Field, f: Field, url: string, now: string)
    requires SameField(g, f, now)
    ensures SameField(g.(value := FieldValue(g, url, now)), f, now)
    ensures forall u :: FieldValue(g.(value := FieldValue(g, url, now)), u, now) == FieldValue(f, u, now)
  {
  }

  /**
   * One pass of the inner loop of `apply_fields` as written: each template entry
   * is updated in place (the URL for `path`, the clock for a truthy `datetime`)
   * and then stored into the record under its name.
   */
  method FillRecordInPlace(tmpl: seq<Field>, template: seq<Field>, url: string, now: string)
    returns (rec: Record, tmpl': seq<Field>)
    requires |tmpl| == |template|
    requires forall k :: 0 <= k < |tmpl| ==> SameField(tmpl[k], template[k], now)
    ensures rec == BuildRecord(template, url, now)
    ensures |tmpl'| == |template|
    ensures forall k :: 0 <= k < |tmpl'| ==> SameField(tmpl'[k], template[k], now)
  {
    tmpl' := tmpl;
    rec := [];
    for j := 0 to |tmpl'|
      invariant |tmpl'| == |template|
      invariant forall k :: 0 <= k < |tmpl'| ==> SameField(tmpl'[k], template[k], now)
      invariant rec == BuildRecord(template[..j], url, now)
    {
      var f := tmpl'[j];
      if f.name == PathKey {
        f := f.(value := VStr(url));
      }
      if f.typ == DateTimeType && Truthy(f.value) {
        f := f.(value := VDateTime(now));
      }
      assert f.value == FieldValue(tmpl'[j], url, now);
      OverwriteIsInvisible(tmpl'[j], template[j], url, now);
      SameFieldYieldsSame(tmpl'[j], template[j], url, now);
      tmpl' := tmpl'[j := f];
      assert template[..j + 1][..j] == template[..j];
      rec := Put(rec, f.name, f.value);
    }
    assert template[..|template|] == template;
  }

  /**
   * `apply_fields` as written: the template entries are updated in place while
   * each record is built, and the result equals the stateless reference.
   */
  method ApplyFieldsInPlace(urls: seq<string>, template: seq<Field>, now: string)
    returns (records: seq<Record>)
    ensures records == ApplyFields(urls, template, now)
  {
    var tmpl := template;
    records := [];
    for u := 0 to |urls|
      invariant |tmpl| == |template|
      invariant forall k :: 0 <= k < |tmpl| ==> SameField(tmpl[k], template[k], now)
      invariant records == ApplyFields(urls[..u], template, now)
    {
      var rec;
      rec, tmpl := FillRecordInPlace(tmpl, template, urls[u], now);
      ApplyFieldsSnoc(urls, template, now, u);
      records := records + [rec];
    }
    assert urls[..|urls|] == urls;
  }

  lemma ApplyFieldsSnoc(urls: seq<string>, template: seq<Field>, now: string, u: int)
    requires 0 <= u < |urls|
    ensures ApplyFields(urls[..u + 1], template, now)
            == ApplyFields(urls[..u], template, now) + [BuildRecord(template, urls[u], now)]
  {
  }

  // ---------------------------------------------------------------------------
  // Properties of the records

  /** Position of the first occurrence of `x`. */
  function FirstIndex(xs: seq<string>, x: string): (i: nat)
    requires x in xs
    ensures i < |xs| && xs[i] == x && x !in xs[..i]
  {
    if xs[0] == x then 0 else 1 + FirstIndex(xs[1..], x)
  }

  lemma FirstIndexSnoc(xs: seq<string>, y: string, x: string)
    requires x in xs + [y]
    ensures FirstIndex(xs + [y], x) == if x in xs then FirstIndex(xs, x) else |xs|
  {
    var ys := xs + [y];
    if x in xs {
      var j := FirstIndex(xs, x);
      assert ys[..j] == xs[..j];
      assert ys[j] == x;
    } else {
      assert ys[..|xs|] == xs;
    }
  }

  lemma NamesSnoc(template: seq<Field>)
    requires |template| > 0
    ensures Names(template) == Names(template[..|template| - 1]) + [template[|template| - 1].name]
  {
  }

  /** A record's keys are the template's names, with no key twice. */
  lemma {:induction false} RecordKeysMembers(template: seq<Field>, url: string, now: string)
    ensures var keys := Keys(BuildRecord(template, url, now));
      && NoDuplicates(keys)
      && (forall k :: k in keys <==> k in Names(template))
    decreases |template|
  {
    if |template| > 0 {
      var init := template[..|template| - 1];
      var last := template[|template| - 1];
      RecordKeysMembers(init, url, now);
      NamesSnoc(template);
    }
  }

  /** `keys` lists members of `names` in the order of their first appearance there. */
  predicate InFirstAppearanceOrder(keys: seq<string>, names: seq<string>) {
    && (forall k :: k in keys ==> k in names)
    && (forall i :: 0 <= i < |keys| - 1 ==> FirstIndex(names, keys[i]) < FirstIndex(names, keys[i + 1]))
  }

  /** Appending a name, and the key when it is new, keeps the order. */
  lemma OrderSnoc(keys: seq<string>, names: seq<string>, x: string)
    requires InFirstAppearanceOrder(keys, names)
    requires x in keys <==> x in names
    ensures InFirstAppearanceOrder(if x in keys then keys else keys + [x], names + [x])
  {
    forall k | k in keys ensures FirstIndex(names + [x], k) == FirstIndex(names, k) {
      FirstIndexSnoc(names, x, k);
    }
    if x !in keys {
      FirstIndexSnoc(names, x, x);
      var keys' := keys + [x];
      forall i | 0 <= i < |keys'| - 1
        ensures FirstIndex(names + [x], keys'[i]) < FirstIndex(names + [x], keys'[i + 1])
      {
        assert keys'[i] == keys[i];
        if i + 1 < |keys| {
          assert keys'[i + 1] == keys[i + 1];
        }
      }
    }
  }

  /** Keys appear in the order of their names' first appearance in the template. */
  lemma {:induction false} RecordKeysOrder(template: seq<Field>, url: string, now: string)
    ensures InFirstAppearanceOrder(Keys(BuildRecord(template, url, now)), Names(template))
    decreases |template|
  {
    if |template| > 0 {
      var init := template[..|template| - 1];
      var last := template[|template| - 1];
      RecordKeysOrder(init, url, now);
      RecordKeysMembers(init, url, now);
      NamesSnoc(template);
      OrderSnoc(Keys(BuildRecord(init, url, now)), Names(init), last.name);
    }
  }

  /**
   * A record's keys are the template's field names, each once, in the order of
   * their first appearance in the template.
   */
  lemma RecordKeys(template: seq<Field>, url: string, now: string)
    ensures var keys := Keys(BuildRecord(template, url, now));
      && NoDuplicates(keys)
      && (forall k :: k in keys <==> k in Names(template))
      && InFirstAppearanceOrder(keys, Names(template))
  {
    RecordKeysMembers(template, url, now);
    RecordKeysOrder(template, url, now);
  }

  /** The value under a key comes from the last template field of that name. */
  lemma {:induction false} RecordLookupLast(template: seq<Field>, url: string, now: string, k: string, i: int)
    requires 0 <= i < |template| && template[i].name == k
    requires forall j :: i < j < |template| ==> template[j].name != k
    ensures Lookup(BuildRecord(template, url, now), k) == Some(FieldValue(template[i], url, now))
    decreases |template|
  {
    if i < |template| - 1 {
      var last := template[|template| - 1];
      RecordLookupLast(template[..|template| - 1], url, now, k, i);
      PutKeepsOthers(BuildRecord(template[..|template| - 1], url, now), last.name, FieldValue(last, url, now), k);
    }
  }

  /** A name absent from the template is absent from the record. */
  lemma {:induction false} RecordLookupAbsent(template: seq<Field>, url: string, now: string, k: string)
    requires forall j :: 0 <= j < |template| ==> template[j].name != k
    ensures Lookup(BuildRecord(template, url, now), k) == None
    decreases |template|
  {
    if |template| > 0 {
      var last := template[|template| - 1];
      RecordLookupAbsent(template[..|template| - 1], url, now, k);
      PutKeepsOthers(BuildRecord(template[..|template| - 1], url, now), last.name, FieldValue(last, url, now), k);
    }
  }

  /**
   * What each key of a record holds, by the last template field of that name:
   * the URL for `path` (or, when that field is typed `datetime`, the clock for a
   * non-empty URL), the clock for a `datetime` field with a truthy default, and
   * the template's own value for every other field, a falsy `datetime` default
   * included.
   */
  lemma ApplyFieldsValues(urls: seq<string>, template: seq<Field>, now: string, n: int, i: int)
    requires 0 <= n < |urls| && 0 <= i < |template|
    requires forall j :: i < j < |template| ==> template[j].name != template[i].name
    ensures var f, v := template[i], Lookup(ApplyFields(urls, template, now)[n], template[i].name);
      && (f.name == PathKey && f.typ != DateTimeType ==> v == Some(VStr(urls[n])))
      && (f.name == PathKey && f.typ == DateTimeType ==> v == Some(if |urls[n]| > 0 then VDateTime(now) else VStr(urls[n])))
      && (f.name != PathKey && f.typ == DateTimeType && Truthy(f.value) ==> v == Some(VDateTime(now)))
      && (f.name != PathKey && !(f.typ == DateTimeType && Truthy(f.value)) ==> v == Some(f.value))
  {
    RecordLookupLast(template, urls[n], now, template[i].name, i);
  }

  /**
   * One record per URL, in input order, and when the template has a `path`
   * field (not typed `datetime`) each record's `path` is its URL.
   */
  lemma PathIsUrl(urls: seq<string>, template: seq<Field>, now: string, n: int)
    requires 0 <= n < |urls|
    requires PathKey in Names(template)
    requires forall j :: 0 <= j < |template| && template[j].name == PathKey ==> template[j].typ != DateTimeType
    ensures |ApplyFields(urls, template, now)| == |urls|
    ensures Lookup(ApplyFields(urls, template, now)[n], PathKey) == Some(VStr(urls[n]))
  {
    PathIsUrlRecord(template, urls[n], now);
  }

  lemma {:induction false} PathIsUrlRecord(template: seq<Field>, url: string, now: string)
    requires PathKey in Names(template)
    requires forall j :: 0 <= j < |template| && template[j].name == PathKey ==> template[j].typ != DateTimeType
    ensures Lookup(BuildRecord(template, url, now), PathKey) == Some(VStr(url))
    decreases |template|
  {
    var init := template[..|template| - 1];
    var last := template[|template| - 1];
    if last.name != PathKey {
      NamesSnoc(template);
      PathIsUrlRecord(init, url, now);
      PutKeepsOthers(BuildRecord(init, url, now), last.name, FieldValue(last, url, now), PathKey);
    }
  }
}

=== FILE: results.dfy ===
/** Option and Result values standing in for Python's `None` returns and raised exceptions. */
module Results {

  datatype Option<+T> = None | Some(value: T)

  datatype Result<+R, +E> = Ok(value: R) | Err(error: E)
}

=== FILE: sql_values.dfy ===
/**
 * The Python values a crawl record holds and how `validate` turns them into
 * SQL text for a bulk insert.
 */
module SqlValues {
  import opened Text

  /**
   * A Python value as the crawl store sees it. `VDateTime` carries the text
   * `str()` gives for the datetime; `VOther` stands for every other value
   * (numbers, lists, ...) with the text `str()` gives for it and whether Python
   * considers it true.
   */
  datatype Value =
    | VStr(s: string)
    | VDateTime(text: string)
    | VNone
    | VBool(b: bool)
    | VOther(shown: string, truthy: bool)

  const TimestampFormat: string := "yyyy-mm-dd hh24:mi:ss"
  const ToTimestampOpen: string := "to_timestamp('"
  const ToTimestampClose: string := "', '" + TimestampFormat + "')"
  const NullLiteral: string := "NULL"

  /** Python's `bool(v)`. */
  predicate Truthy(v: Value) {
    match v
    case VStr(s) => |s| > 0
    case VDateTime(_) => true
    case VNone => false
    case VBool(b) => b
    case VOther(_, t) => t
  }

  /** Python's `str(v)`, which is also what `"{}".format(v)` inserts. */
  function Show(v: Value): string {
    match v
    case VStr(s) => s
    case VDateTime(t) => t
    case VNone => "None"
    case VBool(b) => if b then "True" else "False"
    case VOther(shown, _) => shown
  }

  /** The values `validate` rewrites; every other value passes through. */
  predicate Rewritten(v: Value) {
    v.VStr? || v.VDateTime? || v.VNone?
  }

  /** `validate`: fit a value to SQL syntax. */
  function Validate(v: Value): (r: Value)
    ensures r.VStr? <==> Rewritten(v)
    ensures !Rewritten(v) ==> r == v
    ensures v.VStr? ==> |r.s| == |v.s| + 2 && r.s[0] == '\'' && r.s[|r.s| - 1] == '\''
    ensures v.VStr? ==> r.s[1..|r.s| - 1] == v.s
    ensures v.VDateTime? ==> |r.s| == |ToTimestampOpen| + |v.text| + |ToTimestampClose|
    ensures v.VDateTime? ==> StartsWith(r.s, ToTimestampOpen) && EndsWith(r.s, ToTimestampClose)
    ensures v.VDateTime? ==> r.s[|ToTimestampOpen|..|r.s| - |ToTimestampClose|] == v.text
    ensures v.VNone? ==> r.s == NullLiteral
  {
    match v
    case VStr(s) => VStr("'" + s + "'")
    case VDateTime(t) => VStr(ToTimestampOpen + t + ToTimestampClose)
    case VNone => VStr(NullLiteral)
    case _ => v
  }

  /** The text a value contributes to a bulk-insert row: `"{}".format(validate(v))`. */
  function SqlText(v: Value): string {
    Show(Validate(v))
  }

  /** Number of single quotes in a string. */
  function QuoteCount(s: string): nat {
    if |s| == 0 then 0 else (if s[0] == '\'' then 1 else 0) + QuoteCount(s[1..])
  }

  lemma {:induction false} QuoteCountAppend(a: string, b: string)
    ensures QuoteCount(a + b) == QuoteCount(a) + QuoteCount(b)
    decreases |a|
  {
    if |a| == 0 {
      assert a + b == b;
    } else {
      assert (a + b)[1..] == a[1..] + b;
      QuoteCountAppend(a[1..], b);
    }
  }

  /**
   * Strings are quoted without escaping: the rendering holds exactly the
   * string's own quotes plus the two delimiters, so a quote inside the string
   * ends the SQL literal early.
   */
  lemma StringQuotesNotEscaped(s: string)
    ensures QuoteCount(SqlText(VStr(s))) == QuoteCount(s) + 2
  {
    QuoteCountAppend("'", s);
    QuoteCountAppend("'" + s, "'");
  }

  /** Stripping the two delimiters from a rendered string gives the string back. */
  lemma StringRenderingRoundTrip(s: string)
    ensures var q := SqlText(VStr(s)); q[1..|q| - 1] == s
  {
  }

  /** Distinct strings render to distinct SQL text. */
  lemma StringRenderingInjective(a: string, b: string)
    requires SqlText(VStr(a)) == SqlText(VStr(b))
    ensures a == b
  {
    var qa := SqlText(VStr(a));
    assert qa[1..|qa| - 1] == a;
  }

  /** `validate` leaves a value unchanged exactly when it is not a string, datetime or None. */
  lemma ValidateFixedIff(v: Value)
    ensures Validate(v) == v <==> !Rewritten(v)
  {
    if v.VStr? {
      assert |Validate(v).s| == |v.s| + 2;
    }
  }

  /** Booleans reach SQL as Python prints them. */
  lemma BooleanRendering(b: bool)
    ensures SqlText(VBool(b)) == (if b then "True" else "False")
  {
  }
}

=== FILE: templates.dfy ===
/**
 * Query templates and the token substitution the crawl store builds every
 * statement with. A template file's text is a parameter here.
 *
 * The substitution chain is a sequence of Python `str.replace` calls, so an
 * earlier call's inserted text is scanned again by every later call, while a
 * later call's inserted text is never scanned again. `BulkInsertRendering`
 * and `UpdateStatusRendering` state the outcome for templates made of plain
 * text and placeholders.
 */
module Templates {
  import opened Text

  /** The four placeholders the query templates use. */
  datatype Placeholder = TablePh | TimestampPh | ValuesPh | PathPh {
    function Marker(): Token {
      match this
      case TablePh => "@table"
      case TimestampPh => "@timestamp"
      case ValuesPh => "@values"
      case PathPh => "@path"
    }
  }

  /** Text with no `@`: it can neither hold nor begin a placeholder. */
  predicate Plain(s: string) {
    '@' !in s
  }

  /** A template seen as literal text interleaved with placeholders. */
  datatype Piece = Literal(text: string) | Slot(ph: Placeholder)

  /** The template text a list of pieces stands for. */
  function Flatten(pieces: seq<Piece>): string {
    if |pieces| == 0 then ""
    else
      (match pieces[0] case Literal(t) => t case Slot(p) => p.Marker()) + Flatten(pieces[1..])
  }

  predicate LiteralsPlain(pieces: seq<Piece>) {
    forall k :: 0 <= k < |pieces| && pieces[k].Literal? ==> Plain(pieces[k].text)
  }

  /** The text each placeholder stands for in one query. */
  datatype Bindings = Bindings(table: string, timestamp: string, values: string, path: string) {
    function Of(p: Placeholder): string {
      match p
      case TablePh => table
      case TimestampPh => timestamp
      case ValuesPh => values
      case PathPh => path
    }
  }

  /** The intended query: every placeholder of the template replaced by its binding. */
  function Expand(pieces: seq<Piece>, b: Bindings): string {
    if |pieces| == 0 then ""
    else
      (match pieces[0] case Literal(t) => t case Slot(p) => b.Of(p)) + Expand(pieces[1..], b)
  }

  /** Fill every slot for `p` with the literal text `r`. */
  function Fill(pieces: seq<Piece>, p: Placeholder, r: string): seq<Piece> {
    if |pieces| == 0 then []
    else
      [if pieces[0] == Slot(p) then Literal(r) else pieces[0]] + Fill(pieces[1..], p, r)
  }

  // ---------------------------------------------------------------------------
  // The query builders of the crawl store

  /** `replace_table_name` on the template's text (also `create_table_crawler`'s query). */
  function ReplaceTableName(table: string, template: string): (query: string)
    ensures query == Join(Split(template, TablePh.Marker()), table)
    ensures !Contains(template, TablePh.Marker()) ==> query == template
  {
    ReplaceIsJoinOfSplit(template, TablePh.Marker(), table);
    SplitSingletonIff(template, TablePh.Marker());
    SplitJoinRoundTrip(template, TablePh.Marker());
    Replace(template, TablePh.Marker(), table)
  }

  /** `push_paths`' statement: `@table`, then `@timestamp`, then `@values`. */
  function BulkInsertQuery(template: string, table: string, timestamp: string, values: string): string {
    var q1 := ReplaceTableName(table, template);
    var q2 := Replace(q1, TimestampPh.Marker(), timestamp);
    Replace(q2, ValuesPh.Marker(), values)
  }

  /** `update_crawled_status`' statement: `@table`, then `@path`. */
  function UpdateStatusQuery(template: string, table: string, path: string): string {
    Replace(ReplaceTableName(table, template), PathPh.Marker(), path)
  }

  // ---------------------------------------------------------------------------
  // Facts about the markers

  lemma MarkerShape(p: Placeholder)
    ensures p.Marker()[0] == '@'
    ensures Plain(p.Marker()[1..])
  {
  }

  /** No marker is a prefix of another. */
  lemma MarkersPrefixFree(p: Placeholder, q: Placeholder)
    requires p != q
    ensures !StartsWith(q.Marker(), p.Marker())
  {
    var a, b := p.Marker(), q.Marker();
    if |a| <= |b| {
      assert a[1] != b[1] || a[2] != b[2];
    }
  }

  // ---------------------------------------------------------------------------
  // One replace step over a template of pieces

  /** `replace` walks over plain text unchanged. */
  lemma {:induction false} ReplaceSkipsPlain(a: string, b: string, tok: Token, r: string)
    requires Plain(a) && tok[0] == '@'
    ensures Replace(a + b, tok, r) == a + Replace(b, tok, r)
    decreases |a|
  {
    var s := a + b;
    if |a| == 0 {
      assert s == b;
    } else if |s| < |tok| {
      assert Replace(b, tok, r) == b;
    } else {
      assert s[0] == a[0];
      assert s[..|tok|] != tok by {
        assert s[..|tok|][0] == a[0];
      }
      var a' := a[1..];
      assert a == [a[0]] + a';
      assert s[1..] == a' + b;
      ReplaceSkipsPlain(a', b, tok, r);
    }
  }

  lemma ReplaceOwnMarker(p: Placeholder, b: string, r: string)
    ensures Replace(p.Marker() + b, p.Marker(), r) == r + Replace(b, p.Marker(), r)
  {
    var s := p.Marker() + b;
    assert s[..|p.Marker()|] == p.Marker();
    assert s[|p.Marker()|..] == b;
  }

  lemma ReplaceOtherMarker(q: Placeholder, p: Placeholder, b: string, r: string)
    requires q != p
    ensures Replace(q.Marker() + b, p.Marker(), r) == q.Marker() + Replace(b, p.Marker(), r)
  {
    var m, tok := q.Marker(), p.Marker();
    var s := m + b;
    MarkerShape(q);
    MarkerShape(p);
    if |s| < |tok| {
      assert Replace(b, tok, r) == b;
    } else {
      if s[..|tok|] == tok {
        if |tok| <= |m| {
          assert m[..|tok|] == tok;
          MarkersPrefixFree(p, q);
        } else {
          assert tok[..|m|] == m;
          MarkersPrefixFree(q, p);
          assert false;
        }
      }
      assert s[1..] == m[1..] + b;
      ReplaceSkipsPlain(m[1..], b, tok, r);
      assert [m[0]] + m[1..] == m;
    }
  }

  /** One `replace` of a placeholder's marker fills exactly that placeholder's slots. */
  lemma {:induction false} ReplaceFills(pieces: seq<Piece>, p: Placeholder, r: string)
    requires LiteralsPlain(pieces)
    ensures Replace(Flatten(pieces), p.Marker(), r) == Flatten(Fill(pieces, p, r))
    decreases |pieces|
  {
    if |pieces| > 0 {
      var rest := pieces[1..];
      assert LiteralsPlain(rest) by {
        forall k | 0 <= k < |rest| && rest[k].Literal? ensures Plain(rest[k].text) {
          assert rest[k] == pieces[k + 1];
        }
      }
      ReplaceFills(rest, p, r);
      MarkerShape(p);
      match pieces[0]
      case Literal(t) =>
        ReplaceSkipsPlain(t, Flatten(rest), p.Marker(), r);
      case Slot(q) =>
        if q == p {
          ReplaceOwnMarker(p, Flatten(rest), r);
        } else {
          ReplaceOtherMarker(q, p, Flatten(rest), r);
        }
    }
  }

  lemma {:induction false} FillKeepsPlain(pieces: seq<Piece>, p: Placeholder, r: string)
    requires LiteralsPlain(pieces) && Plain(r)
    ensures LiteralsPlain(Fill(pieces, p, r))
    decreases |pieces|
  {
    if |pieces| > 0 {
      var rest := pieces[1..];
      assert LiteralsPlain(rest) by {
        forall k | 0 <= k < |rest| && rest[k].Literal? ensures Plain(rest[k].text) {
          assert rest[k] == pieces[k + 1];
        }
      }
      FillKeepsPlain(rest, p, r);
      var f := Fill(pieces, p, r);
      forall k | 0 <= k < |f| && f[k].Literal? ensures Plain(f[k].text) {
        if k > 0 {
          assert f[k] == Fill(rest, p, r)[k - 1];
        }
      }
    }
  }

  lemma FillCons(pieces: seq<Piece>, p: Placeholder, r: string)
    requires |pieces| > 0
    ensures Fill(pieces, p, r)[0] == (if pieces[0] == Slot(p) then Literal(r) else pieces[0])
    ensures Fill(pieces, p, r)[1..] == Fill(pieces[1..], p, r)
  {
  }

  /** Filling `@table`, `@timestamp` and `@values` in turn expands them all, leaving `@path`. */
  lemma {:induction false} BulkFillsExpand(pieces: seq<Piece>, table: string, timestamp: string, values: string)
    ensures Flatten(Fill(Fill(Fill(pieces, TablePh, table), TimestampPh, timestamp), ValuesPh, values))
            == Expand(pieces, Bindings(table, timestamp, values, PathPh.Marker()))
    decreases |pieces|
  {
    if |pieces| > 0 {
      var f1 := Fill(pieces, TablePh, table);
      var f2 := Fill(f1, TimestampPh, timestamp);
      FillCons(pieces, TablePh, table);
      FillCons(f1, TimestampPh, timestamp);
      FillCons(f2, ValuesPh, values);
      BulkFillsExpand(pieces[1..], table, timestamp, values);
    }
  }

  /** Filling `@table` and then `@path` expands them, leaving `@timestamp` and `@values`. */
  lemma {:induction false} UpdateFillsExpand(pieces: seq<Piece>, table: string, path: string)
    ensures Flatten(Fill(Fill(pieces, TablePh, table), PathPh, path))
            == Expand(pieces, Bindings(table, TimestampPh.Marker(), ValuesPh.Marker(), path))
    decreases |pieces|
  {
    if |pieces| > 0 {
      var f1 := Fill(pieces, TablePh, table);
      FillCons(pieces, TablePh, table);
      FillCons(f1, PathPh, path);
      UpdateFillsExpand(pieces[1..], table, path);
    }
  }

  // ---------------------------------------------------------------------------
  // The substitution chains

  /**
   * `push_paths`: for a template of plain text and placeholders, and a table
   * name and timestamp without `@`, the statement is the template with
   * `@table`, `@timestamp` and `@values` replaced by their texts. The values
   * text is inserted last and appears verbatim whatever it contains, even a
   * path holding `@table`; a stray `@path` in the template stays as it is.
   */
  lemma BulkInsertRendering(pieces: seq<Piece>, table: string, timestamp: string, values: string)
    requires LiteralsPlain(pieces) && Plain(table) && Plain(timestamp)
    ensures BulkInsertQuery(Flatten(pieces), table, timestamp, values)
            == Expand(pieces, Bindings(table, timestamp, values, PathPh.Marker()))
  {
    var f1 := Fill(pieces, TablePh, table);
    var f2 := Fill(f1, TimestampPh, timestamp);
    ReplaceFills(pieces, TablePh, table);
    FillKeepsPlain(pieces, TablePh, table);
    ReplaceFills(f1, TimestampPh, timestamp);
    FillKeepsPlain(f1, TimestampPh, timestamp);
    ReplaceFills(f2, ValuesPh, values);
    BulkFillsExpand(pieces, table, timestamp, values);
  }

  /**
   * `update_crawled_status`: for a template of plain text and placeholders and
   * a table name without `@`, the statement is the template with `@table` and
   * `@path` replaced; the path, inserted last, appears verbatim.
   */
  lemma UpdateStatusRendering(pieces: seq<Piece>, table: string, path: string)
    requires LiteralsPlain(pieces) && Plain(table)
    ensures UpdateStatusQuery(Flatten(pieces), table, path)
            == Expand(pieces, Bindings(table, TimestampPh.Marker(), ValuesPh.Marker(), path))
  {
    var f1 := Fill(pieces, TablePh, table);
    ReplaceFills(pieces, TablePh, table);
    FillKeepsPlain(pieces, TablePh, table);
    ReplaceFills(f1, PathPh, path);
    UpdateFillsExpand(pieces, table, path);
  }

  /**
   * The order matters: `@table` is replaced before `@path`, so a table name
   * that itself holds `@path` has that marker replaced by the path too.
   */
  lemma TableTextIsRescanned()
    ensures Expand([Slot(TablePh)], Bindings("t@path", "", "", "x")) == "t@path"
    ensures UpdateStatusQuery(Flatten([Slot(TablePh)]), "t@path", "x") == "tx"
  {
    assert Flatten([Slot(TablePh)]) == "@table" + "";
    ReplaceOwnMarker(TablePh, "", "t@path");
    assert "t@path" == "t" + ("@path" + "");
    ReplaceSkipsPlain("t", "@path", PathPh.Marker(), "x");
    ReplaceOwnMarker(PathPh, "", "x");
  }
}

=== FILE: text.dfy ===
/**
 * Strings as sequences of characters, and the two Python string operations the
 * crawl store builds its queries with: `str.replace` (every non-overlapping
 * occurrence, scanned left to right, in one pass) and `sep.join`.
 * `str.split` is defined as well, as the independent partner of `replace`:
 * Python guarantees `s.replace(t, r) == r.join(s.split(t))`.
 */
module Text {

  /** A replacement token: the source only ever replaces non-empty literals. */
  type Token = s: string | |s| > 0 witness "@"

  predicate StartsWith(s: string, prefix: string) {
    |prefix| <= |s| && s[..|prefix|] == prefix
  }

  predicate EndsWith(s: string, suffix: string) {
    |suffix| <= |s| && s[|s| - |suffix|..] == suffix
  }

  /** `tok` occurs in `s` starting at index `i`. */
  predicate OccursAt(s: string, tok: string, i: int) {
    0 <= i && i + |tok| <= |s| && s[i..i + |tok|] == tok
  }

  /** Python's `tok in s`. */
  predicate Contains(s: string, tok: string) {
    exists i | 0 <= i <= |s| :: OccursAt(s, tok, i)
  }

  /** Python's `sep.join(pieces)`. */
  function Join(pieces: seq<string>, sep: string): string {
    if |pieces| == 0 then ""
    else if |pieces| == 1 then pieces[0]
    else pieces[0] + sep + Join(pieces[1..], sep)
  }

  /** Python's `s.replace(tok, rep)`. */
  function Replace(s: string, tok: Token, rep: string): string
    decreases |s|
  {
    if |s| < |tok| then s
    else if s[..|tok|] == tok then rep + Replace(s[|tok|..], tok, rep)
    else [s[0]] + Replace(s[1..], tok, rep)
  }

  /** Python's `s.split(tok)`: the text between consecutive occurrences of `tok`. */
  function Split(s: string, tok: Token): (pieces: seq<string>)
    ensures |pieces| >= 1
    decreases |s|
  {
    if |s| < |tok| then [s]
    else if s[..|tok|] == tok then [""] + Split(s[|tok|..], tok)
    else
      var rest := Split(s[1..], tok);
      [[s[0]] + rest[0]] + rest[1..]
  }

  /** Total length of a list of strings. */
  function TotalLength(pieces: seq<string>): nat {
    if |pieces| == 0 then 0 else |pieces[0]| + TotalLength(pieces[1..])
  }

  // ---------------------------------------------------------------------------
  // Join

  lemma JoinCons(x: string, rest: seq<string>, sep: string)
    requires |rest| > 0
    ensures Join([x] + rest, sep) == x + sep + Join(rest, sep)
  {
    assert ([x] + rest)[1..] == rest;
  }

  /** Joining one more piece adds exactly one separator, at the join point. */
  lemma {:induction false} JoinSnoc(pieces: seq<string>, x: string, sep: string)
    requires |pieces| > 0
    ensures Join(pieces + [x], sep) == Join(pieces, sep) + sep + x
    decreases |pieces|
  {
    if |pieces| == 1 {
      assert pieces + [x] == [pieces[0]] + [x];
      JoinCons(pieces[0], [x], sep);
    } else {
      assert pieces + [x] == [pieces[0]] + (pieces[1..] + [x]);
      JoinCons(pieces[0], pieces[1..] + [x], sep);
      JoinSnoc(pieces[1..], x, sep);
    }
  }

  /** `n` pieces are joined with exactly `n - 1` separators. */
  lemma {:induction false} JoinLength(pieces: seq<string>, sep: string)
    requires |pieces| > 0
    ensures |Join(pieces, sep)| == TotalLength(pieces) + (|pieces| - 1) * |sep|
    decreases |pieces|
  {
    if |pieces| > 1 {
      JoinLength(pieces[1..], sep);
    } else {
      assert TotalLength(pieces[1..]) == 0;
    }
  }

  /** Prepending text to the first piece prepends it to the joined string. */
  lemma JoinExtendFirst(c: string, pieces: seq<string>, sep: string)
    requires |pieces| > 0
    ensures Join([c + pieces[0]] + pieces[1..], sep) == c + Join(pieces, sep)
  {
    if |pieces| > 1 {
      JoinCons(c + pieces[0], pieces[1..], sep);
    }
  }

  // ---------------------------------------------------------------------------
  // Occurrences

  lemma OccursShift(s: string, tok: string, i: int)
    requires |s| > 0 && 0 <= i
    ensures OccursAt(s[1..], tok, i) <==> OccursAt(s, tok, i + 1)
  {
    if 0 <= i && i + |tok| <= |s| - 1 {
      assert s[1..][i..i + |tok|] == s[i + 1..i + 1 + |tok|];
    }
  }

  // ---------------------------------------------------------------------------
  // Replace and Split

  /** Python's identity `s.replace(t, r) == r.join(s.split(t))`. */
  lemma {:induction false} ReplaceIsJoinOfSplit(s: string, tok: Token, rep: string)
    ensures Replace(s, tok, rep) == Join(Split(s, tok), rep)
    decreases |s|
  {
    if |s| < |tok| {
    } else if s[..|tok|] == tok {
      ReplaceIsJoinOfSplit(s[|tok|..], tok, rep);
      JoinCons("", Split(s[|tok|..], tok), rep);
    } else {
      ReplaceIsJoinOfSplit(s[1..], tok, rep);
      JoinExtendFirst([s[0]], Split(s[1..], tok), rep);
    }
  }

  /** Replacing a token by itself changes nothing. */
  lemma {:induction false} ReplaceSelf(s: string, tok: Token)
    ensures Replace(s, tok, tok) == s
    decreases |s|
  {
    if |s| < |tok| {
    } else if s[..|tok|] == tok {
      ReplaceSelf(s[|tok|..], tok);
      assert s == s[..|tok|] + s[|tok|..];
    } else {
      ReplaceSelf(s[1..], tok);
      assert s == [s[0]] + s[1..];
    }
  }

  /** Splitting at a token and joining with the same token gives back the string. */
  lemma SplitJoinRoundTrip(s: string, tok: Token)
    ensures Join(Split(s, tok), tok) == s
  {
    ReplaceIsJoinOfSplit(s, tok, tok);
    ReplaceSelf(s, tok);
  }

  /** The first piece of a split is a prefix of the string. */
  lemma {:induction false} SplitHeadIsPrefix(s: string, tok: Token)
    ensures StartsWith(s, Split(s, tok)[0])
    decreases |s|
  {
    if |s| < |tok| {
      assert Split(s, tok) == [s];
    } else if s[..|tok|] == tok {
      assert Split(s, tok)[0] == "";
    } else {
      var t := s[1..];
      var h := Split(t, tok)[0];
      SplitHeadIsPrefix(t, tok);
      assert Split(s, tok)[0] == [s[0]] + h;
      assert s[..|h| + 1] == [s[0]] + t[..|h|];
    }
  }

  /** No piece of a split contains the token. */
  lemma {:induction false} SplitPiecesAreTokenFree(s: string, tok: Token)
    ensures forall k :: 0 <= k < |Split(s, tok)| ==> !Contains(Split(s, tok)[k], tok)
    decreases |s|
  {
    var pieces := Split(s, tok);
    if |s| < |tok| {
      assert pieces == [s];
      forall i | OccursAt(s, tok, i) ensures false { }
    } else if s[..|tok|] == tok {
      SplitPiecesAreTokenFree(s[|tok|..], tok);
      forall i | OccursAt("", tok, i) ensures false { }
      assert pieces == [""] + Split(s[|tok|..], tok);
      forall k | 0 <= k < |pieces| ensures !Contains(pieces[k], tok) {
        if k > 0 {
          assert pieces[k] == Split(s[|tok|..], tok)[k - 1];
        }
      }
    } else {
      var rest := Split(s[1..], tok);
      SplitPiecesAreTokenFree(s[1..], tok);
      SplitHeadIsPrefix(s[1..], tok);
      var head := [s[0]] + rest[0];
      assert pieces == [head] + rest[1..];
      assert head == s[..|head|];
      forall i | 0 <= i <= |head| ensures !OccursAt(head, tok, i) {
        if i == 0 {
          if |tok| <= |head| {
            assert head[..|tok|] == s[..|tok|];
          }
        } else {
          OccursShift(head, tok, i - 1);
          assert head[1..] == rest[0];
        }
      }
      forall k | 0 <= k < |pieces| ensures !Contains(pieces[k], tok) {
        if k > 0 {
          assert pieces[k] == rest[k];
        }
      }
    }
  }

  /** A string that does not contain the token splits into itself alone. */
  lemma {:induction false} SplitTokenFree(s: string, tok: Token)
    requires !Contains(s, tok)
    ensures Split(s, tok) == [s]
    decreases |s|
  {
    if |s| < |tok| {
    } else {
      assert !OccursAt(s, tok, 0);
      forall i | OccursAt(s[1..], tok, i) ensures false {
        OccursShift(s, tok, i);
      }
      SplitTokenFree(s[1..], tok);
      assert [s[0]] + s[1..] == s;
    }
  }

  /** A split has a single piece exactly when the token does not occur. */
  lemma SplitSingletonIff(s: string, tok: Token)
    ensures |Split(s, tok)| == 1 <==> !Contains(s, tok)
  {
    if |Split(s, tok)| == 1 {
      SplitJoinRoundTrip(s, tok);
      SplitPiecesAreTokenFree(s, tok);
      assert Split(s, tok)[0] == s;
    } else if !Contains(s, tok) {
      SplitTokenFree(s, tok);
    }
  }

  /** A template without the token is left unchanged by `replace`. */
  lemma ReplaceAbsentToken(s: string, tok: Token, rep: string)
    requires !Contains(s, tok)
    ensures Replace(s, tok, rep) == s
  {
    SplitTokenFree(s, tok);
    ReplaceIsJoinOfSplit(s, tok, rep);
  }

  /**
   * Every occurrence is replaced: the result is the token-free pieces of the
   * input, which rejoined with the token give back the input, with the
   * replacement between each two.
   */
  lemma ReplaceEveryOccurrence(s: string, tok: Token, rep: string)
    ensures var pieces := Split(s, tok);
      && Replace(s, tok, rep) == Join(pieces, rep)
      && Join(pieces, tok) == s
      && (forall k :: 0 <= k < |pieces| ==> !Contains(pieces[k], tok))
  {
    ReplaceIsJoinOfSplit(s, tok, rep);
    SplitJoinRoundTrip(s, tok);
    SplitPiecesAreTokenFree(s, tok);
  }

  /** Each replaced occurrence changes the length by `|rep| - |tok|`. */
  lemma ReplaceLength(s: string, tok: Token, rep: string)
    ensures |Replace(s, tok, rep)| == |s| + (|Split(s, tok)| - 1) * (|rep| - |tok|)
  {
    var pieces := Split(s, tok);
    var n := |pieces| - 1;
    ReplaceIsJoinOfSplit(s, tok, rep);
    SplitJoinRoundTrip(s, tok);
    JoinLength(pieces, rep);
    JoinLength(pieces, tok);
    assert n * (|rep| - |tok|) == n * |rep| - n * |tok|;
  }
}
